=== FILE: README.md ===
# XSTN site logic in Dafny

This project models the logic of the XSTN marketing site that sits behind its pages, and proves properties of that model. The model covers:

- **`useForm`.** The form controller holds field values and per-field error messages. It provides `handleChange`, `validate` and `reset`.
- **`useFetch` and `useMutation`.** These data hooks expose `loading`, `error`, `data` (fetch) or `success` and `response` (mutation), plus `refetch` and `reset`. Each awaited provider call is split into two events: a start event, then a settle event carrying the outcome. The outcome is either a resolved reply `{success, data?, error?}` or a throw.
- **The three lead forms: contact, join and partner.** For each form the model has its exact rule set and messages, `handleSubmit` (which calls `mutate(values)` only when `validate()` passes), `handleReset`, and the switch to the confirmation screen on `success`.
- **The projects page.** This covers the category filter (`"All"` or one category), the list it produces, and the choice of what the grid shows: skeletons, the error panel, "No … projects found." or the cards.
- **The services page.** This covers the single-open accordion and the first three "stack" chips of each card header, which come from `stack.split(" · ").slice(0, 3)`.
- **The app root.** This covers the `PAGES` table, the `"home"` default, and the fallback to the home page for an unknown key.

Modules, one per file:

| module | file | what it holds |
|---|---|---|
| `Wrappers` | `wrappers.dfy` | `Option` |
| `JsText` | `jstext.dfy` | the ECMAScript string operations: `\s`, `trim`, UTF-16 `length`, `split` and `join` |
| `Form` | `form.dfy` | `useForm` |
| `Async` | `async.dfy` | `useFetch` and `useMutation` |
| `Validators` | `validators.dfy` | the four kinds of field rule the forms use |
| `LeadForm` | `leadform.dfy` | what the three forms share |
| `ContactPage`, `JoinPage`, `PartnerPage` | `contact.dfy`, `join.dfy`, `partner.dfy` | each form's rules, proved to accept exactly the intended values |
| `ProjectsPage` | `projects.dfy` | the projects filter and view |
| `ServicesPage` | `services.dfy` | the accordion and the stack chips |
| `App` | `app.dfy` | the routing table |

Modelling choices:

- **Strings are `seq<char>`.** JavaScript's `length` counts UTF-16 code units, so it is modelled as `Utf16Length`: a character outside the Basic Multilingual Plane counts twice.
- **Whitespace is one set of characters.** The regex class `\s` and `String.prototype.trim` use the same set, `IsWhitespace`, which holds the ECMAScript WhiteSpace and LineTerminator code points.
- **The email regex `/^[^\s@]+@[^\s@]+\.[^\s@]+$/` is stated two ways.**
  - `EmailShape` says what the regex matches: `local@d1.d2`, where each part is a non-empty run of characters that are neither whitespace nor `@`.
  - `IsEmail` is an executable check. It splits at the first `@`, then looks for a dot with at least one character on each side.
  - `Validators.IsEmailIffShape` proves that the two agree on every string.
- **A rule's message counts as an error only when it is truthy.** The source tests `if (msg)`, so a rule that returns `""` does not block submission. `Form.Flags` models this.

Behaviour of the code that a reader might not expect, and that the model keeps:

- **A failed fetch keeps the data of the last success.** Only a successful reply replaces `data` (src/hooks/useApi.js:16-17). A failed refetch therefore leaves the old projects in place under the error panel (`ProjectsPage.FailedRefetchShowsError`).
- **A failed `mutate` keeps the previous `response`.** Only a success writes it (src/hooks/useApi.js:39-40).
- **A `reset()` during a call is overwritten when the call settles.** The settle step writes `success` or `error` regardless of the reset, so the call that settles last decides them (`Async.ResetInFlightIsOverwritten`).
- **`validate()` tests the message's truthiness.** A rule that returns `""` is not an error (src/hooks/useForm.js:21).

## Model

| member | source | states |
|---|---|---|
| Form.HandleChange | src/hooks/useForm.js:10-14 | the edited field now holds the new value and has its error cleared to null; every other value and error is unchanged; no key is dropped |
| Form.Validate | src/hooks/useForm.js:16-25 | values are untouched; the result is true iff no rule's message on its field's value (missing reads as "") is truthy, iff the new error map is empty; the new error map holds exactly the ruled fields whose rule fired, each with that rule's message |
| Form.ValidateEntries | src/hooks/useForm.js:17-24 | the entry-by-entry loop, visiting the rules in any order, builds exactly the verdict and error map that `Validate` characterises |
| Form.ErrorsForUnique | src/hooks/useForm.js:17-23 | exactly one error map is confined to the ruled fields, holds exactly the fields whose rule fired, and gives each its message |
| Form.Reset | src/hooks/useForm.js:27-30 | values are back to the initial values and the error map is empty |
| Form.ValidateIdempotent | src/hooks/useForm.js:16-25 | validating twice gives the same verdict and state as validating once |
| Form.MissingReadsAsEmpty | src/hooks/useForm.js:20 | a missing field validates exactly like a field holding "" |
| Form.UnruledFieldNeverFlagged | src/hooks/useForm.js:19-21 | a field with no rule never gets an error, and editing it never changes the verdict |
| Form.SameVerdictsSameOutcome | src/hooks/useForm.js:19-24 | two value maps on which every rule gives the same message produce the same error map and verdict |
| Form.ValidateForgetsErrors | src/hooks/useForm.js:17-23 | the previous error map has no influence on `validate()` |
| Async.FailureText | src/hooks/useApi.js:17 | a truthy provider message is passed through unchanged; a missing or empty one gives "Something went wrong."; so the message is never empty |
| Async.FetchMount | src/hooks/useApi.js:8-10 | a mounted fetch has no data and is already in the state a call starts in, so the mount effect's first call changes nothing until it settles |
| Async.FetchStart | src/hooks/useApi.js:13 | starting a fetch turns loading on, clears the error and keeps the data |
| Async.FetchSettle | src/hooks/useApi.js:14-22 | loading always ends off; on success the data is the reply's; otherwise the data is kept and the error is the provider's message or the fallback, and any throw gives the network-error message |
| Async.Execute | src/hooks/useApi.js:12-23 | after a whole call, loading is off and the error is absent iff the provider succeeded; a present error is non-empty; data is the reply's on success and the old data otherwise |
| Async.ExecuteIdempotent | src/hooks/useApi.js:12-26 | a second `refetch()` answered the same way changes nothing |
| Async.ExecuteIgnoresPriorStatus | src/hooks/useApi.js:13 | the result does not depend on the loading flag or error the call started from |
| Async.ThrownDetailHidden | src/hooks/useApi.js:18-19 | every throw settles identically, with the network-error message, whatever was thrown |
| Async.MutateStart | src/hooks/useApi.js:36 | starting a mutation turns loading on, clears error and success, and keeps the response |
| Async.MutationMount | src/hooks/useApi.js:30-33 | a mounted mutation is idle and has nothing for `reset()` to clear |
| Async.MutateSettle | src/hooks/useApi.js:37-43 | loading ends off; on success the success flag is set and the response is the whole reply; otherwise the error is set and success and response are kept |
| Async.Mutate | src/hooks/useApi.js:35-44 | after a whole call, success holds iff the provider succeeded, iff there is no error; a failure keeps the previous response |
| Async.MutationReset | src/hooks/useApi.js:46 | error, success and response are cleared and loading is left as it was |
| Async.ResetInFlightIsOverwritten | src/hooks/useApi.js:35-46 | a reset issued while a call is in flight does not stop the call: loading, success and error settle as without the reset |
| Async.ResetAfterSettleIsMount | src/hooks/useApi.js:30-46 | after a call has settled, `reset()` returns the mutation to its mounted state |
| Validators.IsEmailSound | src/pages/ContactPage.jsx:17 | every string the executable email check accepts has the regex's shape |
| Validators.IsEmailComplete | src/pages/ContactPage.jsx:17 | every string of the regex's shape passes the executable email check |
| Validators.IsEmailIffShape | src/pages/ContactPage.jsx:17 | the executable check and the regex's shape agree on every string |
| Validators.IsEmail | src/pages/ContactPage.jsx:17 | an address the executable check accepts has at least five characters |
| Validators.IsEmailCharacters | src/pages/ContactPage.jsx:17 | in an accepted address, every character but its single `@` is neither whitespace nor `@` |
| Validators.MinLength | src/pages/ContactPage.jsx:16 | a minimum-length rule flags, with its message, exactly the values shorter than the bound in UTF-16 code units; otherwise it returns null |
| Validators.Required | src/pages/JoinPage.jsx:31 | a selection rule flags, with its message, exactly the empty value; otherwise it returns null |
| Validators.NonBlank | src/pages/JoinPage.jsx:32 | a `trim` rule flags, with its message, exactly the values made only of whitespace; otherwise it returns null |
| Validators.EmailRule | src/pages/ContactPage.jsx:17 | the email rule flags, with its message, exactly the values not of the shape `local@d1.d2`; otherwise it returns null |
| Validators.EmailAcceptsPlain | src/pages/ContactPage.jsx:17 | "a@b.com" is accepted |
| Validators.EmailAcceptsDotted | src/pages/ContactPage.jsx:17 | a dotted local part and a multi-dot domain are accepted |
| Validators.EmailRejectsAt | src/pages/ContactPage.jsx:17 | no `@`, an empty local part, and a second `@` are rejected |
| Validators.EmailRejectsDomain | src/pages/ContactPage.jsx:17 | a domain with no dot, or with its only dot at either end, is rejected |
| Validators.EmailRejectsWhitespace | src/pages/ContactPage.jsx:17 | whitespace in the address is rejected |
| JsText.Utf16Length | src/pages/ContactPage.jsx:16 | `length` is between the number of characters and twice that, and is zero only for the empty string |
| JsText.Utf16LengthOfBmp | src/pages/ContactPage.jsx:16 | inside the Basic Multilingual Plane, `length` is the number of characters |
| JsText.TrimStart | src/pages/JoinPage.jsx:32 | the result is a suffix of the input, what was removed is all whitespace, and the result does not start with whitespace |
| JsText.TrimEnd | src/pages/JoinPage.jsx:32 | the result is a prefix of the input, what was removed is all whitespace, and the result does not end with whitespace |
| JsText.TrimEmptyIffBlank | src/pages/JoinPage.jsx:32 | `!v.trim()` holds exactly when the value is all whitespace |
| JsText.Split | src/pages/ServicesPage.jsx:64 | `split` gives at least one part; the first part is a prefix of the input and is cut at the leftmost occurrence of the separator: none starts inside it, one starts right after it when there are more parts, and with a single part it is the whole input |
| JsText.SplitOverlappingSeparator | src/pages/ServicesPage.jsx:64 | a separator that overlaps itself is cut at its leftmost occurrence: `" · · "` split at `" · "` gives `""` and `"· "` |
| JsText.SplitRest | src/pages/ServicesPage.jsx:64 | when there is more than one piece, the first occurrence of the separator ends inside the string and the later pieces are exactly the split of what follows it; with `Split`'s facts about the first piece this fixes every piece |
| JsText.SplitAfterFirstCut | src/pages/ServicesPage.jsx:64 | the scan restarts right after each cut: `"a ·  · · "` split at `" · "` gives `"a"`, `""` and `"· "` |
| JsText.JoinSplit | src/pages/ServicesPage.jsx:64 | joining the parts of a split with the same separator gives back the original string |
| JsText.SplitPiecesAvoidSeparator | src/pages/ServicesPage.jsx:64 | no part of a split contains the separator |
| JsText.JoinTakeIsPrefix | src/pages/ServicesPage.jsx:64 | joining the first k parts gives a prefix of joining all of them |
| LeadForm.Submit | src/pages/ContactPage.jsx:22 | submitting always re-validates; `mutate` is called, with exactly the current values, iff validation passes, and then loading is on, the previous error and success are cleared and the response is kept; otherwise the mutation is untouched |
| LeadForm.Deliver | src/pages/ContactPage.jsx:22-27 | when the awaited `mutate` settles, the form is untouched and loading ends; a success brings up the confirmation with the whole reply; a failure shows the call's message and leaves the confirmation as it was |
| LeadForm.HandleReset | src/pages/ContactPage.jsx:23 | the form returns to its initial values with no errors, and the mutation's error, success and response are cleared |
| LeadForm.SubmitThenDeliver | src/pages/ContactPage.jsx:22-27 | after a valid submission settles, the confirmation screen shows iff the provider succeeded, and then holds the whole reply; otherwise the call's error message is shown |
| LeadForm.ResetFromConfirmationIsMount | src/pages/ContactPage.jsx:23-27 | resetting from the confirmation screen gives back the freshly mounted page |
| ContactPage.ContactNameError | src/pages/ContactPage.jsx:16 | name has an error, "Your name is required.", iff it is shorter than 2 code units |
| ContactPage.ContactEmailError | src/pages/ContactPage.jsx:17 | email has an error, "Enter a valid email address.", iff it is not of the shape `local@d1.d2` |
| ContactPage.ContactMessageError | src/pages/ContactPage.jsx:18 | message has an error, "Please describe your project (min 20 chars).", iff it is shorter than 20 code units |
| ContactPage.ContactRules | src/pages/ContactPage.jsx:15-19 | the contact form checks exactly name, email and message |
| ContactPage.ContactUncheckedFields | src/pages/ContactPage.jsx:13-20 | only name, email and message can carry an error |
| ContactPage.ContactValid | src/pages/ContactPage.jsx:13-20 | `validate()` passes iff name has at least 2 code units, email has the right shape, and message has at least 20 code units |
| ContactPage.ContactSubmitGate | src/pages/ContactPage.jsx:22 | the inquiry is sent, with exactly the form's values, iff those values are acceptable |
| ContactPage.ContactMountedRejected | src/pages/ContactPage.jsx:13-22 | the empty form as mounted cannot be sent |
| JoinPage.JoinNameError | src/pages/JoinPage.jsx:29 | name has an error, "Full name is required.", iff it is shorter than 2 code units |
| JoinPage.JoinEmailError | src/pages/JoinPage.jsx:30 | email has an error, "Enter a valid email address.", iff it is not of the shape `local@d1.d2` |
| JoinPage.JoinRoleError | src/pages/JoinPage.jsx:31 | role has an error, "Please select your specialization.", iff it is empty |
| JoinPage.JoinSkillsError | src/pages/JoinPage.jsx:32 | skills has an error, "List your primary skills.", iff it is all whitespace |
| JoinPage.JoinMessageError | src/pages/JoinPage.jsx:33 | message has an error, "Tell us more about yourself (min 30 chars).", iff it is shorter than 30 code units |
| JoinPage.JoinRules | src/pages/JoinPage.jsx:28-34 | the application form checks exactly name, email, role, skills and message |
| JoinPage.JoinUncheckedFields | src/pages/JoinPage.jsx:26-35 | only name, email, role, skills and message can carry an error |
| JoinPage.JoinValid | src/pages/JoinPage.jsx:26-35 | `validate()` passes iff all five checked fields meet their rules |
| JoinPage.JoinSubmitGate | src/pages/JoinPage.jsx:37 | the application is sent, with exactly the form's values, iff those values are acceptable |
| JoinPage.JoinMountedRejected | src/pages/JoinPage.jsx:26-37 | the empty form as mounted cannot be sent |
| PartnerPage.PartnerCompanyError | src/pages/PartnerPage.jsx:23 | company has an error, "Company name is required.", iff it is all whitespace |
| PartnerPage.PartnerNameError | src/pages/PartnerPage.jsx:24 | name has an error, "Your name is required.", iff it is shorter than 2 code units |
| PartnerPage.PartnerEmailError | src/pages/PartnerPage.jsx:25 | email has an error, "Enter a valid business email.", iff it is not of the shape `local@d1.d2` |
| PartnerPage.PartnerTypeError | src/pages/PartnerPage.jsx:26 | type has an error, "Please select a partnership type.", iff it is empty |
| PartnerPage.PartnerDetailsError | src/pages/PartnerPage.jsx:27 | details has an error, "Please describe the opportunity (min 20 chars).", iff it is shorter than 20 code units |
| PartnerPage.PartnerRules | src/pages/PartnerPage.jsx:22-28 | the partnership form checks exactly company, name, email, type and details |
| PartnerPage.PartnerUncheckedFields | src/pages/PartnerPage.jsx:20-29 | only company, name, email, type and details can carry an error |
| PartnerPage.PartnerValid | src/pages/PartnerPage.jsx:20-29 | `validate()` passes iff all five checked fields meet their rules |
| PartnerPage.PartnerSubmitGate | src/pages/PartnerPage.jsx:31 | the request is sent, with exactly the form's values, iff those values are acceptable |
| PartnerPage.PartnerMountedRejected | src/pages/PartnerPage.jsx:20-31 | the empty form as mounted cannot be sent |
| ProjectsPage.InitialFilter | src/pages/ProjectsPage.jsx:13 | the filter starts at the first category option, "All" |
| ProjectsPage.ByCategory | src/pages/ProjectsPage.jsx:15 | filtering by category never lengthens the list, and keeps only listed projects of that category |
| ProjectsPage.Filtered | src/pages/ProjectsPage.jsx:15 | without data the list is empty; with data it is never longer than the data and holds only fetched projects, each of the chosen category unless the filter is "All" |
| ProjectsPage.ByCategoryIsSubsequence | src/pages/ProjectsPage.jsx:15 | the filtered projects keep their original order |
| ProjectsPage.ByCategoryCounts | src/pages/ProjectsPage.jsx:15 | each project of the category is kept as often as it occurs, and every other project is dropped |
| ProjectsPage.FilteredMeaning | src/pages/ProjectsPage.jsx:15 | the list is empty without data and is all the data under "All"; otherwise it is exactly the projects of the chosen category, in order, with their multiplicities |
| ProjectsPage.View | src/pages/ProjectsPage.jsx:39-50 | skeletons show iff loading; the error panel shows iff loading is over and there is a truthy error, and it carries that error message; "No … projects found." shows iff loading is over, there is no error and the list is empty; cards show iff loading is over, there is no error and the list is non-empty, and they are exactly that list |
| ProjectsPage.FirstLoad | src/pages/ProjectsPage.jsx:39-51 | on mount the page shows skeletons; after a successful first fetch, every fetched project shows under the initial filter |
| ProjectsPage.FailedRefetchShowsError | src/pages/ProjectsPage.jsx:39-44 | a failed refetch keeps the old projects but shows the error panel with the call's message |
| ServicesPage.Toggle | src/pages/ServicesPage.jsx:51 | a click opens the clicked card iff it was closed, and leaves every other card closed |
| ServicesPage.InitialExpanded | src/pages/ServicesPage.jsx:21 | no card is open when the page mounts |
| ServicesPage.Clicks | src/pages/ServicesPage.jsx:51 | after a run of clicks, nothing is open or only the last card clicked is |
| ServicesPage.ToggleTwice | src/pages/ServicesPage.jsx:51 | clicking a card twice restores a closed accordion, or that card open; any other open card ends closed |
| ServicesPage.Chips | src/pages/ServicesPage.jsx:64 | at most three chips; they are the first parts of the stack split at " · ", and all of them when there are fewer than three |
| ServicesPage.ChipsRebuildStack | src/pages/ServicesPage.jsx:64 | the chips joined back with " · " are the start of the stack string, and are all of it when it has at most three parts; no chip contains the separator |
| App.Resolve | src/App.jsx:35 | a listed key gives its page; any other key gives the home page |
| App.ResolveKeyOf | src/App.jsx:17-25 | every page is listed under its key and is found from it |
| App.KeyOfResolve | src/App.jsx:17-25 | every listed key names a page that is listed under that key |
| App.InitialRouter | src/App.jsx:28 | the stored key is `"home"`, the key the home page is listed under, so the app starts on the home page |
| App.SetPage | src/App.jsx:30-33 | navigating stores exactly the requested key |
| App.SetPageShows | src/App.jsx:30-35 | navigating to a page's key shows that page, and an unknown key shows the home page |

## Left out

- **Rendering.** JSX markup, styles, animation and the success-screen copy are not modelled. The only exception is the choice of which branch the projects grid renders.
- **The services page's loading and error branches** (src/pages/ServicesPage.jsx:40-45). They have the same shape as the projects page's, which is modelled.
- **`useTypewriter`, `useInView`, the cursor and particles, and other timer- or DOM-driven effects.** They are presentation and depend on the clock and the browser.
- **The data provider (`src/services/api.js`).** Its fixtures, delays, `Math.random` identifiers and payload handling are out. Each provider call appears only as an `Outcome` parameter: a resolved reply or a throw.
- **Effect scheduling and overlapping calls.** The model does not include `useEffect` timing or two calls of one hook in flight at once. Each call is a start event followed by its own settle event. `Async.ResetInFlightIsOverwritten` covers the one interleaving of a reset during a call.
- **Browser and environment effects.** `window.scrollTo` on navigation, the WhatsApp link, and `import.meta.env` lookups are browser and build effects.
- **App.Resolve: inherited property names.** The model treats an unlisted key as missing. In JavaScript, `PAGES[key]` also finds inherited names such as `"constructor"`. The site only ever navigates with listed keys.
- **`useCallback` memoisation of `validate` over `values`.** The rules are fixed literals in every page, so the memoisation cannot change a result.
- **ContactPage.ContactUncheckedFields, JoinPage.JoinUncheckedFields, PartnerPage.PartnerUncheckedFields.** Each states that the error map's keys are among the checked fields. It does not list each unchecked field separately; that follows from the key bound.
- **Static page content.** A project is reduced to the fields the logic reads: `id` (the grid key) and `category` (the filter). Its title and other display copy are not modelled. A service record is not modelled at all: the accordion works on a service's `id` and the chips on its `stack` string. Display-only constants such as the role list, criteria and partner types are not modelled.

=== FILE: app.dfy ===
/** The app root: state-based routing from a page key to the page component. */
module App {

  /** The seven page components. */
  datatype Page = Home | About | Services | Projects | Join | Partner | Contact

  /** The `PAGES` table. */
  const Pages: map<string, Page> :=
    map["home" := Home, "about" := About, "services" := Services, "projects" := Projects,
        "join" := Join, "partner" := Partner, "contact" := Contact]

  /** The key each page is listed under. */
  function KeyOf(p: Page): string {
    match p
    case Home => "home"
    case About => "about"
    case Services => "services"
    case Projects => "projects"
    case Join => "join"
    case Partner => "partner"
    case Contact => "contact"
  }

  /** `PAGES[activePage] || HomePage` */
  function Resolve(activePage: string): (p: Page)
    ensures activePage in Pages ==> p == Pages[activePage]
    ensures activePage !in Pages ==> p == Home
  {
    if activePage in Pages then Pages[activePage] else Home
  }

  /** Every page is reachable under its own key, and every key names the page listed under it. */
  lemma ResolveKeyOf(p: Page)
    ensures KeyOf(p) in Pages && Resolve(KeyOf(p)) == p
  {
  }

  lemma KeyOfResolve(key: string)
    requires key in Pages
    ensures KeyOf(Resolve(key)) == key
  {
  }

  /** The routing state: the key of the active page. */
  datatype Router = Router(activePage: string)

  /** `useState("home")` */
  function InitialRouter(): (r: Router)
    ensures r.activePage == KeyOf(Home)
    ensures Resolve(r.activePage) == Home
  {
    Router("home")
  }

  /** `setPage(page)`; the scroll to the top is a browser effect left out. */
  function SetPage(r: Router, page: string): (r': Router)
    ensures r'.activePage == page
  {
    r.(activePage := page)
  }

  /** Navigating by a page's key shows that page; an unknown key shows the home page. */
  lemma SetPageShows(r: Router, page: string)
    ensures page in Pages ==> Resolve(SetPage(r, page).activePage) == Pages[page]
    ensures page !in Pages ==> Resolve(SetPage(r, page).activePage) == Home
    ensures forall p: Page :: Resolve(SetPage(r, KeyOf(p)).activePage) == p
  {
    forall p: Page
      ensures Resolve(SetPage(r, KeyOf(p)).activePage) == p
    {
      ResolveKeyOf(p);
    }
  }
}

=== FILE: async.dfy ===
/** The data hooks: `useFetch` (read) and `useMutation` (write). The awaited
    provider call is split into two events, `Start` and `Settle(outcome)`. */
module Async {
  import opened Wrappers

  const FallbackError := "Something went wrong."
  const NetworkError := "Network error. Please try again."

  /** The provider's answer: `{ success, data?, error? }`. */
  datatype Reply<D> = Reply(success: bool, data: Option<D>, error: Option<string>)

  /** How an awaited provider call settles: it resolves with a reply or it throws. */
  datatype Outcome<D> = Resolved(reply: Reply<D>) | Threw(detail: string)

  predicate Succeeded<D>(o: Outcome<D>) {
    o.Resolved? && o.reply.success
  }

  /** `result.error || "Something went wrong."`: a truthy message passes through,
      anything else gives the fallback, so the result is never empty. */
  function FailureText(error: Option<string>): (msg: string)
    ensures msg != ""
    ensures error.Some? && error.value != "" ==> msg == error.value
    ensures error.None? || error.value == "" ==> msg == FallbackError
  {
    if error.Some? && error.value != "" then error.value else FallbackError
  }

  /** The message a settled call that did not succeed leaves in `error`. */
  function ErrorOf<D>(o: Outcome<D>): string
    requires !Succeeded(o)
  {
    match o
    case Resolved(reply) => FailureText(reply.error)
    case Threw(_) => NetworkError
  }

  // ---------------------------------------------------------------- useFetch

  datatype FetchState<D> = FetchState(data: Option<D>, loading: bool, error: Option<string>)

  /** The state on mount: no data yet, and already the state `execute()` starts
      with, so the mount effect's first call changes nothing until it settles. */
  function FetchMount<D>(): (r: FetchState<D>)
    ensures r.data == None
    ensures FetchStart(r) == r
  {
    FetchState(None, true, None)
  }

  /** `execute()` up to the await: loading on, error cleared, data kept. */
  function FetchStart<D>(s: FetchState<D>): (r: FetchState<D>)
    ensures r.loading && r.error == None
    ensures r.data == s.data
  {
    s.(loading := true, error := None)
  }

  /** `execute()` after the await: record data or an error, then (finally) loading off. */
  function FetchSettle<D>(s: FetchState<D>, o: Outcome<D>): (r: FetchState<D>)
    ensures !r.loading
    ensures Succeeded(o) ==> r.data == o.reply.data && r.error == s.error
    ensures !Succeeded(o) ==> r.data == s.data && r.error == Some(ErrorOf(o))
    ensures o.Threw? ==> r.error == Some(NetworkError)
  {
    match o
    case Resolved(reply) =>
      if reply.success then s.(data := reply.data, loading := false)
      else s.(error := Some(FailureText(reply.error)), loading := false)
    case Threw(_) =>
      s.(error := Some(NetworkError), loading := false)
  }

  /** One whole `execute()` / `refetch()` call: start, then settle. */
  function Execute<D>(s: FetchState<D>, o: Outcome<D>): (r: FetchState<D>)
    ensures !r.loading
    ensures r.error == None <==> Succeeded(o)
    ensures r.error.Some? ==> r.error.value != ""
    ensures Succeeded(o) ==> r.data == o.reply.data
    ensures !Succeeded(o) ==> r.data == s.data
  {
    FetchSettle(FetchStart(s), o)
  }

  /** Calling `refetch()` again with a provider that answers the same way changes nothing. */
  lemma ExecuteIdempotent<D>(s: FetchState<D>, o: Outcome<D>)
    ensures Execute(Execute(s, o), o) == Execute(s, o)
  {
  }

  /** A settled call depends only on the data it started from and on the outcome,
      never on the loading flag or error of the state it started in. */
  lemma ExecuteIgnoresPriorStatus<D>(s: FetchState<D>, loading: bool, error: Option<string>, o: Outcome<D>)
    ensures Execute(s.(loading := loading, error := error), o) == Execute(s, o)
  {
  }

  /** What was thrown never reaches the state: every throw settles the same way. */
  lemma ThrownDetailHidden<D>(s: FetchState<D>, x: string, y: string)
    ensures Execute(s, Threw(x)) == Execute(s, Threw(y))
    ensures Execute(s, Threw(x)).error == Some(NetworkError)
  {
  }

  // ------------------------------------------------------------- useMutation

  /** `response` holds the provider's whole reply, not just its data. */
  datatype MutationState<R> = MutationState(
    loading: bool, error: Option<string>, success: bool, response: Option<Reply<R>>)

  /** The state on mount: idle, with nothing for `reset()` to clear. */
  function MutationMount<R>(): (r: MutationState<R>)
    ensures !r.loading
    ensures MutationReset(r) == r
  {
    MutationState(false, None, false, None)
  }

  /** `mutate(payload)` up to the await: loading on, error and success cleared, response kept. */
  function MutateStart<R>(s: MutationState<R>): (r: MutationState<R>)
    ensures r.loading && r.error == None && !r.success
    ensures r.response == s.response
  {
    s.(loading := true, error := None, success := false)
  }

  /** `mutate(payload)` after the await. */
  function MutateSettle<R>(s: MutationState<R>, o: Outcome<R>): (r: MutationState<R>)
    ensures !r.loading
    ensures Succeeded(o) ==> r.success && r.response == Some(o.reply) && r.error == s.error
    ensures !Succeeded(o) ==> r.success == s.success && r.response == s.response && r.error == Some(ErrorOf(o))
  {
    match o
    case Resolved(reply) =>
      if reply.success then s.(success := true, response := Some(reply), loading := false)
      else s.(error := Some(FailureText(reply.error)), loading := false)
    case Threw(_) =>
      s.(error := Some(NetworkError), loading := false)
  }

  /** One whole `mutate(payload)` call. Afterwards exactly one of `success` and
      a (non-empty) `error` holds; a failed call keeps the previous response. */
  function Mutate<R>(s: MutationState<R>, o: Outcome<R>): (r: MutationState<R>)
    ensures !r.loading
    ensures r.success <==> Succeeded(o)
    ensures r.success <==> r.error == None
    ensures r.error.Some? ==> r.error.value != ""
    ensures r.success ==> r.response == Some(o.reply)
    ensures !r.success ==> r.response == s.response
  {
    MutateSettle(MutateStart(s), o)
  }

  /** `reset()`: error, success and response cleared; loading is left as it is. */
  function MutationReset<R>(s: MutationState<R>): (r: MutationState<R>)
    ensures r.error == None && !r.success && r.response == None
    ensures r.loading == s.loading
  {
    s.(error := None, success := false, response := None)
  }

  /** A `reset()` issued while a call is in flight does not stop that call: when it
      settles, loading, success and error end exactly as without the reset. Only a
      stale response from an earlier call is gone. */
  lemma ResetInFlightIsOverwritten<R>(s: MutationState<R>, o: Outcome<R>)
    ensures var a := MutateSettle(MutationReset(MutateStart(s)), o);
            var b := Mutate(s, o);
            a.loading == b.loading && a.success == b.success && a.error == b.error
    ensures Succeeded(o) ==> MutateSettle(MutationReset(MutateStart(s)), o) == Mutate(s, o)
    ensures !Succeeded(o) ==> MutateSettle(MutationReset(MutateStart(s)), o).response == None
  {
  }

  /** Once a call has settled, `reset()` brings the controller back to its mounted state. */
  lemma ResetAfterSettleIsMount<R>(s: MutationState<R>, o: Outcome<R>)
    ensures MutationReset(Mutate(s, o)) == MutationMount()
  {
  }
}

=== FILE: contact.dfy ===
/** The contact inquiry form. */
module ContactPage {
  import opened Wrappers
  import opened JsText
  import opened Validators
  import Form
  import LeadForm

  const NameError := "Your name is required."
  const EmailError := "Enter a valid email address."
  const MessageError := "Please describe your project (min 20 chars)."

  /** Every input of the form, all empty on mount. */
  function ContactInitial(): Form.Values {
    map["name" := "", "company" := "", "email" := "", "projectType" := "", "budget" := "", "timeline" := "", "message" := ""]
  }

  /** The rule set: name, email, message are checked; company, project type, budget and timeline are not. */
  function ContactRules(): (r: Form.Rules)
    ensures r.Keys == {"name", "email", "message"}
  {
    map["name" := MinLength(2, NameError),
        "email" := EmailRule(EmailError),
        "message" := MinLength(20, MessageError)]
  }

  /** The values the contact form lets through. */
  ghost predicate ContactAccepts(values: Form.Values) {
    && Utf16Length(Form.ValueOf(values, "name")) >= 2
    && EmailShape(Form.ValueOf(values, "email"))
    && Utf16Length(Form.ValueOf(values, "message")) >= 20
  }

  /** The `name` field gets an error, and then exactly `NameError`, when its value is shorter than 2 UTF-16 code units. */
  lemma ContactNameError(s: Form.FormState)
    ensures var e := Form.Validate(s, ContactRules()).form.errors;
            && ("name" in e <==> Utf16Length(Form.ValueOf(s.values, "name")) < 2)
            && ("name" in e ==> e["name"] == Some(NameError))
  {
    var v := Form.ValueOf(s.values, "name");
    assert Form.Verdict(ContactRules(), s.values, "name") == MinLength(2, NameError)(v);
  }

  /** The `email` field gets an error, and then exactly `EmailError`, when its value is not of the shape `local@d1.d2`. */
  lemma ContactEmailError(s: Form.FormState)
    ensures var e := Form.Validate(s, ContactRules()).form.errors;
            && ("email" in e <==> !EmailShape(Form.ValueOf(s.values, "email")))
            && ("email" in e ==> e["email"] == Some(EmailError))
  {
    var v := Form.ValueOf(s.values, "email");
    assert Form.Verdict(ContactRules(), s.values, "email") == EmailRule(EmailError)(v);
  }

  /** The `message` field gets an error, and then exactly `MessageError`, when its value is shorter than 20 UTF-16 code units. */
  lemma ContactMessageError(s: Form.FormState)
    ensures var e := Form.Validate(s, ContactRules()).form.errors;
            && ("message" in e <==> Utf16Length(Form.ValueOf(s.values, "message")) < 20)
            && ("message" in e ==> e["message"] == Some(MessageError))
  {
    var v := Form.ValueOf(s.values, "message");
    assert Form.Verdict(ContactRules(), s.values, "message") == MinLength(20, MessageError)(v);
  }

  /** Only the checked fields can ever carry an error: company, project type, budget and timeline never do. */
  lemma ContactUncheckedFields(s: Form.FormState)
    ensures Form.Validate(s, ContactRules()).form.errors.Keys <= {"name", "email", "message"}
  {
    assert ContactRules().Keys == {"name", "email", "message"};
  }

  /** `validate()` on the contact form returns true exactly for the acceptable values. */
  lemma ContactValid(s: Form.FormState)
    ensures Form.Validate(s, ContactRules()).ok <==> ContactAccepts(s.values)
  {
    var e := Form.Validate(s, ContactRules()).form.errors;
    if ContactAccepts(s.values) {
      assert "name" !in e by { ContactNameError(s); }
      assert "email" !in e by { ContactEmailError(s); }
      assert "message" !in e by { ContactMessageError(s); }
      assert e.Keys <= {"name", "email", "message"} by { ContactUncheckedFields(s); }
      Form.EmptyOnThreeFields(e, "name", "email", "message");
    } else {
      if Utf16Length(Form.ValueOf(s.values, "name")) < 2 {
        assert "name" in e by { ContactNameError(s); }
      } else if !EmailShape(Form.ValueOf(s.values, "email")) {
        assert "email" in e by { ContactEmailError(s); }
      } else {
        assert "message" in e by { ContactMessageError(s); }
      }
    }
  }

  /** `handleSubmit` calls `mutate(values)` exactly when the values are acceptable,
      and otherwise leaves the mutation as it was. */
  lemma ContactSubmitGate<R>(p: LeadForm.LeadPage<R>)
    ensures var r := LeadForm.Submit(p, ContactRules());
            && (r.sent.Some? <==> ContactAccepts(p.form.values))
            && (r.sent.Some? ==> r.sent.value == p.form.values)
            && (r.sent.None? ==> r.page.mutation == p.mutation)
  {
    ContactValid(p.form);
  }

  /** The freshly mounted form cannot be submitted as it is. */
  lemma ContactMountedRejected<R>()
    ensures !ContactAccepts(ContactInitial())
    ensures LeadForm.Submit(LeadForm.Mount<R>(ContactInitial()), ContactRules()).sent.None?
  {
    ContactValid(Form.Init(ContactInitial()));
  }
}

=== FILE: form.dfy ===
/** The form controller (`useForm`): field values, per-field error messages,
    and the three transitions `handleChange`, `validate` and `reset`. */
module Form {
  import opened Wrappers

  type Values = map<string, string>
  /** A field's error: `null` (None) once the field is edited, a message after a failed rule. */
  type Errors = map<string, Option<string>>
  /** A rule maps a field's value to an error message, or to `null`. */
  type Rule = string -> Option<string>
  type Rules = map<string, Rule>

  datatype FormState = FormState(values: Values, errors: Errors)

  /** What `validate()` returns, together with the state it leaves behind. */
  datatype Validation = Validation(ok: bool, form: FormState)

  /** The state a form starts in, and returns to on `reset()`. */
  function Init(initial: Values): FormState {
    FormState(initial, map[])
  }

  /** `values[field] || ""`: a missing field is read as the empty string. */
  function ValueOf(values: Values, field: string): string {
    if field in values then values[field] else ""
  }

  /** A rule's result counts as an error only when it is truthy: a non-empty message. */
  predicate Flags(msg: Option<string>) {
    msg.Some? && msg.value != ""
  }

  /** The message `rules[field]` gives for the current value of `field`. */
  function Verdict(rules: Rules, values: Values, field: string): Option<string>
    requires field in rules
  {
    rules[field](ValueOf(values, field))
  }

  /** The error map `validate()` builds from scratch. */
  function ErrorsFor(rules: Rules, values: Values): Errors {
    map f | f in rules && Flags(Verdict(rules, values, f)) :: Verdict(rules, values, f)
  }

  /** `handleChange` for the input `name`: store the new value and clear that field's error. */
  function HandleChange(s: FormState, name: string, value: string): (r: FormState)
    ensures name in r.values && r.values[name] == value
    ensures r.values.Keys == s.values.Keys + {name}
    ensures forall f :: f in s.values && f != name ==> r.values[f] == s.values[f]
    ensures name in r.errors && r.errors[name] == None
    ensures r.errors.Keys == s.errors.Keys + {name}
    ensures forall f :: f in s.errors && f != name ==> r.errors[f] == s.errors[f]
  {
    FormState(s.values[name := value], s.errors[name := None])
  }

  /** `validate()`: run every rule on its field, replace the error map with the
      messages that fired, and report whether none did. */
  function Validate(s: FormState, rules: Rules): (r: Validation)
    ensures r.form.values == s.values
    ensures r.ok <==> forall f :: f in rules ==> !Flags(Verdict(rules, s.values, f))
    ensures r.ok <==> r.form.errors == map[]
    ensures r.form.errors.Keys <= rules.Keys
    ensures forall f :: f in rules ==>
              (f in r.form.errors <==> Flags(Verdict(rules, s.values, f)))
    ensures forall f :: f in r.form.errors ==>
              Flags(r.form.errors[f]) && r.form.errors[f] == Verdict(rules, s.values, f)
  {
    var errors := ErrorsFor(rules, s.values);
    var ok := forall f | f in rules :: !Flags(Verdict(rules, s.values, f));
    if !ok then
      var f :| f in rules && Flags(Verdict(rules, s.values, f));
      assert f in errors;
      Validation(false, FormState(s.values, errors))
    else
      Validation(true, FormState(s.values, errors))
  }

  /** `reset()`: the initial values and no errors. */
  function Reset(initial: Values): (r: FormState)
    ensures r.values == initial && r.errors == map[]
  {
    Init(initial)
  }

  /** The `forEach` loop of `validate()`: walk the rule set entry by entry,
      adding each message that fires and clearing `valid`. It builds exactly
      the error map and verdict of `Validate`, whatever order the entries come in. */
  method ValidateEntries(rules: Rules, values: Values) returns (valid: bool, newErrors: Errors)
    ensures valid == Validate(FormState(values, map[]), rules).ok
    ensures newErrors == Validate(FormState(values, map[]), rules).form.errors
  {
    newErrors := map[];
    valid := true;
    var pending := rules.Keys;
    while pending != {}
      invariant pending <= rules.Keys
      invariant newErrors.Keys <= rules.Keys - pending
      invariant forall f :: f in rules.Keys - pending ==>
                  (f in newErrors <==> Flags(Verdict(rules, values, f)))
      invariant forall f :: f in newErrors ==> newErrors[f] == Verdict(rules, values, f)
      invariant valid <==> forall f :: f in rules.Keys - pending ==> !Flags(Verdict(rules, values, f))
      decreases pending
    {
      var field :| field in pending;
      var msg := rules[field](ValueOf(values, field));
      if Flags(msg) {
        newErrors := newErrors[field := msg];
        valid := false;
      }
      pending := pending - {field};
    }
    ErrorsForUnique(rules, values, newErrors);
  }

  /** `ErrorsFor` is the only error map confined to the ruled fields that holds
      exactly the fields whose rule fires, each with its rule's message. */
  lemma ErrorsForUnique(rules: Rules, values: Values, e: Errors)
    requires e.Keys <= rules.Keys
    requires forall f :: f in rules ==> (f in e <==> Flags(Verdict(rules, values, f)))
    requires forall f :: f in e ==> e[f] == Verdict(rules, values, f)
    ensures e == ErrorsFor(rules, values)
  {
  }

  /** Validating twice in a row changes nothing the second time. */
  lemma ValidateIdempotent(s: FormState, rules: Rules)
    ensures Validate(Validate(s, rules).form, rules) == Validate(s, rules)
  {
  }

  /** A missing field and an empty one validate alike: absence is not an error in itself,
      only the rule's verdict on `""` decides. */
  lemma MissingReadsAsEmpty(s: FormState, rules: Rules, field: string)
    requires field !in s.values
    ensures Validate(s, rules).ok == Validate(FormState(s.values[field := ""], s.errors), rules).ok
    ensures Validate(s, rules).form.errors == Validate(FormState(s.values[field := ""], s.errors), rules).form.errors
  {
    var t := s.values[field := ""];
    forall f | f in rules
      ensures Verdict(rules, s.values, f) == Verdict(rules, t, f)
    {
      assert ValueOf(s.values, f) == ValueOf(t, f);
    }
    SameVerdictsSameOutcome(rules, s.values, t);
  }

  /** A field without a rule never carries an error after `validate()`, whatever its value. */
  lemma UnruledFieldNeverFlagged(s: FormState, rules: Rules, field: string, value: string)
    requires field !in rules
    ensures field !in Validate(s, rules).form.errors
    ensures Validate(HandleChange(s, field, value), rules).ok == Validate(s, rules).ok
  {
    var t := HandleChange(s, field, value).values;
    forall f | f in rules
      ensures Verdict(rules, s.values, f) == Verdict(rules, t, f)
    {
      assert ValueOf(s.values, f) == ValueOf(t, f);
    }
    SameVerdictsSameOutcome(rules, s.values, t);
  }

  /** Two sets of values on which every rule gives the same verdict validate alike. */
  lemma SameVerdictsSameOutcome(rules: Rules, v: Values, w: Values)
    requires forall f :: f in rules ==> Verdict(rules, v, f) == Verdict(rules, w, f)
    ensures ErrorsFor(rules, v) == ErrorsFor(rules, w)
    ensures Validate(FormState(v, map[]), rules).ok == Validate(FormState(w, map[]), rules).ok
  {
  }

  /** The previous error map plays no part in `validate()`: it is re-derived from the values alone. */
  lemma ValidateForgetsErrors(s: FormState, rules: Rules, old_errors: Errors)
    ensures Validate(FormState(s.values, old_errors), rules) == Validate(s, rules)
  {
  }

  /** An error map confined to three fields, holding none of them, is empty. */
  lemma EmptyOnThreeFields(e: Errors, a: string, b: string, c: string)
    requires e.Keys <= {a, b, c}
    requires a !in e && b !in e && c !in e
    ensures e == map[]
  {
    assert e.Keys == {};
  }

  /** An error map confined to five fields, holding none of them, is empty. */
  lemma EmptyOnFiveFields(e: Errors, a: string, b: string, c: string, d: string, x: string)
    requires e.Keys <= {a, b, c, d, x}
    requires a !in e && b !in e && c !in e && d !in e && x !in e
    ensures e == map[]
  {
    assert e.Keys == {};
  }
}

=== FILE: join.dfy ===
/** The developer application form. */
module JoinPage {
  import opened Wrappers
  import opened JsText
  import opened Validators
  import Form
  import LeadForm

  const NameError := "Full name is required."
  const EmailError := "Enter a valid email address."
  const RoleError := "Please select your specialization."
  const SkillsError := "List your primary skills."
  const MessageError := "Tell us more about yourself (min 30 chars)."

  /** Every input of the form, all empty on mount. */
  function JoinInitial(): Form.Values {
    map["name" := "", "email" := "", "college" := "", "role" := "", "skills" := "", "github" := "", "linkedin" := "", "message" := ""]
  }

  /** The rule set: name, email, role, skills, message are checked; college, GitHub and LinkedIn are not. */
  function JoinRules(): (r: Form.Rules)
    ensures r.Keys == {"name", "email", "role", "skills", "message"}
  {
    map["name" := MinLength(2, NameError),
        "email" := EmailRule(EmailError),
        "role" := Required(RoleError),
        "skills" := NonBlank(SkillsError),
        "message" := MinLength(30, MessageError)]
  }

  /** The values the application form lets through. */
  ghost predicate JoinAccepts(values: Form.Values) {
    && Utf16Length(Form.ValueOf(values, "name")) >= 2
    && EmailShape(Form.ValueOf(values, "email"))
    && Form.ValueOf(values, "role") != ""
    && !IsBlank(Form.ValueOf(values, "skills"))
    && Utf16Length(Form.ValueOf(values, "message")) >= 30
  }

  /** The `name` field gets an error, and then exactly `NameError`, when its value is shorter than 2 UTF-16 code units. */
  lemma JoinNameError(s: Form.FormState)
    ensures var e := Form.Validate(s, JoinRules()).form.errors;
            && ("name" in e <==> Utf16Length(Form.ValueOf(s.values, "name")) < 2)
            && ("name" in e ==> e["name"] == Some(NameError))
  {
    var v := Form.ValueOf(s.values, "name");
    assert Form.Verdict(JoinRules(), s.values, "name") == MinLength(2, NameError)(v);
  }

  /** The `email` field gets an error, and then exactly `EmailError`, when its value is not of the shape `local@d1.d2`. */
  lemma JoinEmailError(s: Form.FormState)
    ensures var e := Form.Validate(s, JoinRules()).form.errors;
            && ("email" in e <==> !EmailShape(Form.ValueOf(s.values, "email")))
            && ("email" in e ==> e["email"] == Some(EmailError))
  {
    var v := Form.ValueOf(s.values, "email");
    assert Form.Verdict(JoinRules(), s.values, "email") == EmailRule(EmailError)(v);
  }

  /** The `role` field gets an error, and then exactly `RoleError`, when its value is empty (nothing selected). */
  lemma JoinRoleError(s: Form.FormState)
    ensures var e := Form.Validate(s, JoinRules()).form.errors;
            && ("role" in e <==> Form.ValueOf(s.values, "role") == "")
            && ("role" in e ==> e["role"] == Some(RoleError))
  {
    var v := Form.ValueOf(s.values, "role");
    assert Form.Verdict(JoinRules(), s.values, "role") == Required(RoleError)(v);
  }

  /** The `skills` field gets an error, and then exactly `SkillsError`, when its value is blank after trimming. */
  lemma JoinSkillsError(s: Form.FormState)
    ensures var e := Form.Validate(s, JoinRules()).form.errors;
            && ("skills" in e <==> IsBlank(Form.ValueOf(s.values, "skills")))
            && ("skills" in e ==> e["skills"] == Some(SkillsError))
  {
    var v := Form.ValueOf(s.values, "skills");
    assert Form.Verdict(JoinRules(), s.values, "skills") == NonBlank(SkillsError)(v);
  }

  /** The `message` field gets an error, and then exactly `MessageError`, when its value is shorter than 30 UTF-16 code units. */
  lemma JoinMessageError(s: Form.FormState)
    ensures var e := Form.Validate(s, JoinRules()).form.errors;
            && ("message" in e <==> Utf16Length(Form.ValueOf(s.values, "message")) < 30)
            && ("message" in e ==> e["message"] == Some(MessageError))
  {
    var v := Form.ValueOf(s.values, "message");
    assert Form.Verdict(JoinRules(), s.values, "message") == MinLength(30, MessageError)(v);
  }

  /** Only the checked fields can ever carry an error: college, GitHub and LinkedIn never do. */
  lemma JoinUncheckedFields(s: Form.FormState)
    ensures Form.Validate(s, JoinRules()).form.errors.Keys <= {"name", "email", "role", "skills", "message"}
  {
    assert JoinRules().Keys == {"name", "email", "role", "skills", "message"};
  }

  /** `validate()` on the application form returns true exactly for the acceptable values. */
  lemma JoinValid(s: Form.FormState)
    ensures Form.Validate(s, JoinRules()).ok <==> JoinAccepts(s.values)
  {
    var e := Form.Validate(s, JoinRules()).form.errors;
    if JoinAccepts(s.values) {
      assert "name" !in e by { JoinNameError(s); }
      assert "email" !in e by { JoinEmailError(s); }
      assert "role" !in e by { JoinRoleError(s); }
      assert "skills" !in e by { JoinSkillsError(s); }
      assert "message" !in e by { JoinMessageError(s); }
      assert e.Keys <= {"name", "email", "role", "skills", "message"} by { JoinUncheckedFields(s); }
      Form.EmptyOnFiveFields(e, "name", "email", "role", "skills", "message");
    } else {
      if Utf16Length(Form.ValueOf(s.values, "name")) < 2 {
        assert "name" in e by { JoinNameError(s); }
      } else if !EmailShape(Form.ValueOf(s.values, "email")) {
        assert "email" in e by { JoinEmailError(s); }
      } else if Form.ValueOf(s.values, "role") == "" {
        assert "role" in e by { JoinRoleError(s); }
      } else if IsBlank(Form.ValueOf(s.values, "skills")) {
        assert "skills" in e by { JoinSkillsError(s); }
      } else {
        assert "message" in e by { JoinMessageError(s); }
      }
    }
  }

  /** `handleSubmit` calls `mutate(values)` exactly when the values are acceptable,
      and otherwise leaves the mutation as it was. */
  lemma JoinSubmitGate<R>(p: LeadForm.LeadPage<R>)
    ensures var r := LeadForm.Submit(p, JoinRules());
            && (r.sent.Some? <==> JoinAccepts(p.form.values))
            && (r.sent.Some? ==> r.sent.value == p.form.values)
            && (r.sent.None? ==> r.page.mutation == p.mutation)
  {
    JoinValid(p.form);
  }

  /** The freshly mounted form cannot be submitted as it is. */
  lemma JoinMountedRejected<R>()
    ensures !JoinAccepts(JoinInitial())
    ensures LeadForm.Submit(LeadForm.Mount<R>(JoinInitial()), JoinRules()).sent.None?
  {
    JoinValid(Form.Init(JoinInitial()));
  }
}

=== FILE: jstext.dfy ===
/** The few ECMAScript string operations the forms and views rely on:
    `\s` and `trim`, UTF-16 `length`, and `split` with a string separator. */
module JsText {

  /** ECMAScript WhiteSpace and LineTerminator code points (Zs as of Unicode 15):
      exactly the characters matched by the regex class `\s` and removed by `trim`. */
  predicate IsWhitespace(c: char) {
    var n := c as int;
    || n == 0x09 || n == 0x0A || n == 0x0B || n == 0x0C || n == 0x0D || n == 0x20
    || n == 0xA0 || n == 0x1680 || (0x2000 <= n <= 0x200A)
    || n == 0x2028 || n == 0x2029 || n == 0x202F || n == 0x205F || n == 0x3000 || n == 0xFEFF
  }

  /** A string with nothing but whitespace in it (the empty string included). */
  predicate IsBlank(s: string) {
    forall k :: 0 <= k < |s| ==> IsWhitespace(s[k])
  }

  /** UTF-16 code units of a code point: two for the supplementary planes. */
  function CodeUnits(c: char): nat {
    if c as int >= 0x1_0000 then 2 else 1
  }

  /** `s.length`: the number of UTF-16 code units, not of code points. */
  function Utf16Length(s: string): (n: nat)
    ensures |s| <= n <= 2 * |s|
    ensures n == 0 <==> s == []
  {
    if s == [] then 0 else CodeUnits(s[0]) + Utf16Length(s[1..])
  }

  /** On text inside the Basic Multilingual Plane, `length` counts characters. */
  lemma {:induction false} Utf16LengthOfBmp(s: string)
    requires forall k :: 0 <= k < |s| ==> s[k] as int < 0x1_0000
    ensures Utf16Length(s) == |s|
  {
    if s != [] {
      Utf16LengthOfBmp(s[1..]);
    }
  }

  /** A blank string with a whitespace character added at either end is still blank. */
  lemma BlankAround(c: char, before: string, after: string)
    requires IsWhitespace(c) && IsBlank(before) && IsBlank(after)
    ensures IsBlank([c] + before) && IsBlank(after + [c])
  {
  }

  /** Leading whitespace removed. */
  function TrimStart(s: string): (r: string)
    ensures |r| <= |s| && r == s[|s| - |r|..]
    ensures IsBlank(s[..|s| - |r|])
    ensures r != [] ==> !IsWhitespace(r[0])
  {
    if s != [] && IsWhitespace(s[0]) then
      var t := s[1..];
      var r := TrimStart(t);
      assert t[|t| - |r|..] == s[|s| - |r|..];
      assert s[..|s| - |r|] == [s[0]] + t[..|t| - |r|];
      BlankAround(s[0], t[..|t| - |r|], []);
      r
    else s
  }

  /** Trailing whitespace removed. */
  function TrimEnd(s: string): (r: string)
    ensures |r| <= |s| && r == s[..|r|]
    ensures IsBlank(s[|r|..])
    ensures r != [] ==> !IsWhitespace(r[|r| - 1])
  {
    if s != [] && IsWhitespace(s[|s| - 1]) then
      var t := s[..|s| - 1];
      var r := TrimEnd(t);
      assert t[..|r|] == s[..|r|];
      assert s[|r|..] == t[|r|..] + [s[|s| - 1]];
      BlankAround(s[|s| - 1], [], t[|r|..]);
      r
    else s
  }

  /** `s.trim()` */
  function Trim(s: string): string {
    TrimEnd(TrimStart(s))
  }

  /** `!s.trim()` holds exactly of the blank strings. */
  lemma TrimEmptyIffBlank(s: string)
    ensures Trim(s) == [] <==> IsBlank(s)
  {
    var t := TrimStart(s);
    if Trim(s) == [] {
      assert IsBlank(t[0..]);
      assert t == [];
      assert s[..|s|] == s;
    }
  }

  /** `sep` occurs in `s` starting at index `i`. */
  predicate OccursAt(s: string, sep: string, i: nat) {
    i + |sep| <= |s| && s[i..i + |sep|] == sep
  }

  /** `s.split(sep)` for a non-empty separator: cut at every occurrence of
      `sep`, scanning left to right, keeping empty pieces. */
  function Split(s: string, sep: string): (parts: seq<string>)
    requires sep != []
    ensures |parts| >= 1
    ensures |parts[0]| <= |s| && parts[0] == s[..|parts[0]|]
    ensures forall i :: 0 <= i < |parts[0]| ==> !OccursAt(s, sep, i)
    ensures |parts| > 1 ==> OccursAt(s, sep, |parts[0]|)
    ensures |parts| == 1 ==> parts[0] == s
    decreases |s|
  {
    if |s| < |sep| then [s]
    else if OccursAt(s, sep, 0) then [""] + Split(s[|sep|..], sep)
    else
      var rest := Split(s[1..], sep);
      ShiftOccurrence(s, sep);
      [[s[0]] + rest[0]] + rest[1..]
  }

  /** An occurrence in `s` past its first character is one in `s[1..]`, one place earlier. */
  lemma ShiftOccurrence(s: string, sep: string)
    requires s != []
    ensures forall i :: 1 <= i ==> (OccursAt(s, sep, i) <==> OccursAt(s[1..], sep, i - 1))
  {
    forall i | 1 <= i
      ensures OccursAt(s, sep, i) <==> OccursAt(s[1..], sep, i - 1)
    {
      if i + |sep| <= |s| {
        var a, b := s[i..i + |sep|], s[1..][i - 1..i - 1 + |sep|];
        assert forall k :: 0 <= k < |sep| ==> a[k] == s[i + k] == b[k];
        assert a == b;
      }
    }
  }

  /** A separator that overlaps itself is cut at its leftmost occurrence, as in
      JavaScript: `" · · ".split(" · ")` is `["", "· "]`. */
  lemma SplitOverlappingSeparator()
    ensures Split(" \U{00B7} \U{00B7} ", " \U{00B7} ") == ["", "\U{00B7} "]
  {
    var s, sep := " \U{00B7} \U{00B7} ", " \U{00B7} ";
    assert OccursAt(s, sep, 0);
    assert s[|sep|..] == "\U{00B7} ";
  }

  /** `Split` past a leading separator. */
  lemma SplitAtSeparator(s: string, sep: string)
    requires sep != [] && OccursAt(s, sep, 0)
    ensures Split(s, sep) == [""] + Split(s[|sep|..], sep)
  {
  }

  /** `Split` past a leading character that does not start the separator. */
  lemma SplitPastCharacter(s: string, sep: string)
    requires sep != [] && |sep| <= |s| && !OccursAt(s, sep, 0)
    ensures Split(s, sep) == [[s[0]] + Split(s[1..], sep)[0]] + Split(s[1..], sep)[1..]
  {
  }

  /** After the first cut, `split` carries on from just past the separator: the later
      pieces are the split of what follows the first occurrence. With the facts `Split`
      states about its first piece, this fixes every piece. */
  lemma {:induction false} SplitRest(s: string, sep: string)
    requires sep != []
    ensures |Split(s, sep)| > 1 ==>
              |Split(s, sep)[0]| + |sep| <= |s|
              && Split(s, sep)[1..] == Split(s[|Split(s, sep)[0]| + |sep|..], sep)
    decreases |s|
  {
    var parts := Split(s, sep);
    if |parts| > 1 {
      if OccursAt(s, sep, 0) {
        SplitAtSeparator(s, sep);
        assert parts[1..] == Split(s[|sep|..], sep);
      } else {
        SplitPastCharacter(s, sep);
        var t := s[1..];
        var rest := Split(t, sep);
        assert |rest| == |parts| && |parts[0]| == 1 + |rest[0]|;
        SplitRest(t, sep);
        var n := |rest[0]| + |sep|;
        assert t[n..] == s[n + 1..];
        assert parts[1..] == rest[1..];
      }
    }
  }

  /** A character that cannot start the separator, then the separator: the first piece
      is that character alone and the scan restarts right after the separator. */
  lemma SplitCharThenSeparator(c: char, sep: string, u: string)
    requires sep != [] && c != sep[0]
    ensures Split([c] + sep + u, sep) == [[c]] + Split(u, sep)
  {
    var s, t := [c] + sep + u, sep + u;
    assert s[..|sep|][0] == c;
    SplitPastCharacter(s, sep);
    assert s[1..] == t && t[..|sep|] == sep && t[|sep|..] == u;
    SplitAtSeparator(t, sep);
    var rest := Split(t, sep);
    assert rest[0] == "" && rest[1..] == Split(u, sep);
    assert [c] + rest[0] == [c];
  }

  /** The later pieces of `"a \U{00B7}  \U{00B7} \U{00B7} ".split(" \U{00B7} ")`: after the
      first cut the scan restarts, so the second piece is empty. */
  lemma SplitAfterFirstCut()
    ensures Split("a \U{00B7}  \U{00B7} \U{00B7} ", " \U{00B7} ") == ["a", "", "\U{00B7} "]
  {
    var sep := " \U{00B7} ";
    assert "a \U{00B7}  \U{00B7} \U{00B7} " == ['a'] + sep + " \U{00B7} \U{00B7} ";
    SplitCharThenSeparator('a', sep, " \U{00B7} \U{00B7} ");
    SplitOverlappingSeparator();
  }

  /** `parts.join(sep)` */
  function Join(parts: seq<string>, sep: string): string {
    if |parts| == 0 then ""
    else if |parts| == 1 then parts[0]
    else parts[0] + sep + Join(parts[1..], sep)
  }

  lemma {:induction false} JoinExtendFirst(c: string, parts: seq<string>, sep: string)
    requires |parts| >= 1
    ensures Join([c + parts[0]] + parts[1..], sep) == c + Join(parts, sep)
  {
    var q := [c + parts[0]] + parts[1..];
    assert q[1..] == parts[1..];
    if |parts| > 1 {
      assert Join(q, sep) == (c + parts[0]) + sep + Join(parts[1..], sep);
      assert Join(parts, sep) == parts[0] + sep + Join(parts[1..], sep);
    }
  }

  /** Joining the pieces of a split with the same separator gives the string back. */
  lemma {:induction false} JoinSplit(s: string, sep: string)
    requires sep != []
    ensures Join(Split(s, sep), sep) == s
    decreases |s|
  {
    if |s| < |sep| {
    } else if OccursAt(s, sep, 0) {
      var rest := Split(s[|sep|..], sep);
      assert Split(s, sep) == [""] + rest;
      JoinSplit(s[|sep|..], sep);
      assert ([""] + rest)[1..] == rest;
      assert s == sep + s[|sep|..];
    } else {
      var rest := Split(s[1..], sep);
      assert Split(s, sep) == [[s[0]] + rest[0]] + rest[1..];
      JoinSplit(s[1..], sep);
      JoinExtendFirst([s[0]], rest, sep);
      assert s == [s[0]] + s[1..];
    }
  }

  /** No piece of a split contains the separator. */
  lemma {:induction false} SplitPiecesAvoidSeparator(s: string, sep: string)
    requires sep != []
    ensures forall p, i :: p in Split(s, sep) && 0 <= i ==> !OccursAt(p, sep, i)
    decreases |s|
  {
    var parts := Split(s, sep);
    PrefixOccurrence(parts[0], s, sep);
    if |s| < |sep| {
    } else if OccursAt(s, sep, 0) {
      SplitPiecesAvoidSeparator(s[|sep|..], sep);
      assert parts[1..] == Split(s[|sep|..], sep);
    } else {
      var rest := Split(s[1..], sep);
      SplitPiecesAvoidSeparator(s[1..], sep);
      assert parts[1..] == rest[1..];
    }
    assert forall p :: p in parts ==> p == parts[0] || p in parts[1..];
  }

  /** An occurrence inside a prefix of `s` is an occurrence in `s`, starting within the prefix. */
  lemma PrefixOccurrence(p: string, s: string, sep: string)
    requires sep != [] && |p| <= |s| && p == s[..|p|]
    ensures forall i: nat :: OccursAt(p, sep, i) ==> i < |p| && OccursAt(s, sep, i)
  {
    forall i: nat | OccursAt(p, sep, i)
      ensures OccursAt(s, sep, i)
    {
      assert p[i..i + |sep|] == s[i..i + |sep|];
    }
  }

  /** Joining the first `k` pieces gives a prefix of joining them all. */
  lemma {:induction false} JoinTakeIsPrefix(parts: seq<string>, k: nat, sep: string)
    requires k <= |parts|
    ensures var j := Join(parts[..k], sep); |j| <= |Join(parts, sep)| && j == Join(parts, sep)[..|j|]
    decreases k
  {
    if k == 0 {
    } else if k == |parts| {
      assert parts[..k] == parts;
    } else if k == 1 {
      assert parts[..1] == [parts[0]];
    } else {
      JoinTakeIsPrefix(parts[1..], k - 1, sep);
      assert parts[..k][1..] == parts[1..][..k - 1];
      assert |parts| > 1;
    }
  }
}

=== FILE: leadform.dfy ===
/** What the contact, join and partner pages share: a form and a mutation,
    `handleSubmit` gated on `validate()`, and `handleReset`. */
module LeadForm {
  import opened Wrappers
  import opened Form
  import opened Async

  datatype LeadPage<R> = LeadPage(form: FormState, mutation: MutationState<R>)

  /** `handleSubmit`'s effect: the page afterwards, and the payload passed to
      `mutate` when the submission got past validation. */
  datatype Submission<R> = Submission(page: LeadPage<R>, sent: Option<Values>)

  function Mount<R>(initial: Values): LeadPage<R> {
    LeadPage(Init(initial), MutationMount())
  }

  /** `handleSubmit`: validate; on failure return, otherwise start `mutate(values)`. */
  function Submit<R>(p: LeadPage<R>, rules: Rules): (r: Submission<R>)
    ensures r.page.form == Validate(p.form, rules).form
    ensures r.sent.Some? <==> Validate(p.form, rules).ok
    ensures r.sent.Some? ==> r.sent.value == p.form.values && r.page.mutation.loading
    ensures r.sent.Some? ==> r.page.mutation.error == None && !r.page.mutation.success
                             && r.page.mutation.response == p.mutation.response
    ensures r.sent.None? ==> r.page.mutation == p.mutation
  {
    var v := Validate(p.form, rules);
    if !v.ok then Submission(p.(form := v.form), None)
    else Submission(LeadPage(v.form, MutateStart(p.mutation)), Some(p.form.values))
  }

  /** The awaited `mutate` settles: the form is untouched, loading ends, a success
      brings up the confirmation with the whole reply, and a failure leaves the
      confirmation as it was and shows the call's message. */
  function Deliver<R>(p: LeadPage<R>, o: Outcome<R>): (r: LeadPage<R>)
    ensures r.form == p.form && !r.mutation.loading
    ensures Succeeded(o) ==> ShowsConfirmation(r) && r.mutation.response == Some(o.reply)
    ensures !Succeeded(o) ==> r.mutation.error == Some(ErrorOf(o))
                              && (ShowsConfirmation(r) <==> ShowsConfirmation(p))
  {
    p.(mutation := MutateSettle(p.mutation, o))
  }

  /** `handleReset`: reset the form and the mutation. */
  function HandleReset<R>(p: LeadPage<R>, initial: Values): (r: LeadPage<R>)
    ensures r.form == Init(initial)
    ensures !r.mutation.success && r.mutation.error == None && r.mutation.response == None
    ensures r.mutation.loading == p.mutation.loading
  {
    LeadPage(Reset(initial), MutationReset(p.mutation))
  }

  /** The page renders its confirmation screen instead of the form. */
  predicate ShowsConfirmation<R>(p: LeadPage<R>) {
    p.mutation.success
  }

  /** A valid submission whose provider call then settles: the confirmation appears
      exactly when the provider answered with success, and then holds that whole
      reply; otherwise the form stays up with the call's error message. */
  lemma SubmitThenDeliver<R>(p: LeadPage<R>, rules: Rules, o: Outcome<R>)
    requires Validate(p.form, rules).ok
    ensures var q := Deliver(Submit(p, rules).page, o);
            && !q.mutation.loading
            && q.form == FormState(p.form.values, map[])
            && (ShowsConfirmation(q) <==> Succeeded(o))
            && (ShowsConfirmation(q) ==> q.mutation.response == Some(o.reply) && q.mutation.error == None)
            && (!ShowsConfirmation(q) ==> q.mutation.error == Some(ErrorOf(o)))
  {
  }

  /** From the confirmation screen, `handleReset` gives back the freshly mounted page. */
  lemma ResetFromConfirmationIsMount<R>(p: LeadPage<R>, initial: Values)
    requires ShowsConfirmation(p) && !p.mutation.loading
    ensures HandleReset(p, initial) == Mount(initial)
    ensures !ShowsConfirmation(HandleReset(p, initial))
  {
  }
}

=== FILE: partner.dfy ===
/** The partnership request form. */
module PartnerPage {
  import opened Wrappers
  import opened JsText
  import opened Validators
  import Form
  import LeadForm

  const CompanyError := "Company name is required."
  const NameError := "Your name is required."
  const EmailError := "Enter a valid business email."
  const TypeError := "Please select a partnership type."
  const DetailsError := "Please describe the opportunity (min 20 chars)."

  /** Every input of the form, all empty on mount. */
  function PartnerInitial(): Form.Values {
    map["company" := "", "name" := "", "email" := "", "type" := "", "website" := "", "details" := ""]
  }

  /** The rule set: company, name, email, type, details are checked; the website is not. */
  function PartnerRules(): (r: Form.Rules)
    ensures r.Keys == {"company", "name", "email", "type", "details"}
  {
    map["company" := NonBlank(CompanyError),
        "name" := MinLength(2, NameError),
        "email" := EmailRule(EmailError),
        "type" := Required(TypeError),
        "details" := MinLength(20, DetailsError)]
  }

  /** The values the partnership form lets through. */
  ghost predicate PartnerAccepts(values: Form.Values) {
    && !IsBlank(Form.ValueOf(values, "company"))
    && Utf16Length(Form.ValueOf(values, "name")) >= 2
    && EmailShape(Form.ValueOf(values, "email"))
    && Form.ValueOf(values, "type") != ""
    && Utf16Length(Form.ValueOf(values, "details")) >= 20
  }

  /** The `company` field gets an error, and then exactly `CompanyError`, when its value is blank after trimming. */
  lemma PartnerCompanyError(s: Form.FormState)
    ensures var e := Form.Validate(s, PartnerRules()).form.errors;
            && ("company" in e <==> IsBlank(Form.ValueOf(s.values, "company")))
            && ("company" in e ==> e["company"] == Some(CompanyError))
  {
    var v := Form.ValueOf(s.values, "company");
    assert Form.Verdict(PartnerRules(), s.values, "company") == NonBlank(CompanyError)(v);
  }

  /** The `name` field gets an error, and then exactly `NameError`, when its value is shorter than 2 UTF-16 code units. */
  lemma PartnerNameError(s: Form.FormState)
    ensures var e := Form.Validate(s, PartnerRules()).form.errors;
            && ("name" in e <==> Utf16Length(Form.ValueOf(s.values, "name")) < 2)
            && ("name" in e ==> e["name"] == Some(NameError))
  {
    var v := Form.ValueOf(s.values, "name");
    assert Form.Verdict(PartnerRules(), s.values, "name") == MinLength(2, NameError)(v);
  }

  /** The `email` field gets an error, and then exactly `EmailError`, when its value is not of the shape `local@d1.d2`. */
  lemma PartnerEmailError(s: Form.FormState)
    ensures var e := Form.Validate(s, PartnerRules()).form.errors;
            && ("email" in e <==> !EmailShape(Form.ValueOf(s.values, "email")))
            && ("email" in e ==> e["email"] == Some(EmailError))
  {
    var v := Form.ValueOf(s.values, "email");
    assert Form.Verdict(PartnerRules(), s.values, "email") == EmailRule(EmailError)(v);
  }

  /** The `type` field gets an error, and then exactly `TypeError`, when its value is empty (nothing selected). */
  lemma PartnerTypeError(s: Form.FormState)
    ensures var e := Form.Validate(s, PartnerRules()).form.errors;
            && ("type" in e <==> Form.ValueOf(s.values, "type") == "")
            && ("type" in e ==> e["type"] == Some(TypeError))
  {
    var v := Form.ValueOf(s.values, "type");
    assert Form.Verdict(PartnerRules(), s.values, "type") == Required(TypeError)(v);
  }

  /** The `details` field gets an error, and then exactly `DetailsError`, when its value is shorter than 20 UTF-16 code units. */
  lemma PartnerDetailsError(s: Form.FormState)
    ensures var e := Form.Validate(s, PartnerRules()).form.errors;
            && ("details" in e <==> Utf16Length(Form.ValueOf(s.values, "details")) < 20)
            && ("details" in e ==> e["details"] == Some(DetailsError))
  {
    var v := Form.ValueOf(s.values, "details");
    assert Form.Verdict(PartnerRules(), s.values, "details") == MinLength(20, DetailsError)(v);
  }

  /** Only the checked fields can ever carry an error: the website never does. */
  lemma PartnerUncheckedFields(s: Form.FormState)
    ensures Form.Validate(s, PartnerRules()).form.errors.Keys <= {"company", "name", "email", "type", "details"}
  {
    assert PartnerRules().Keys == {"company", "name", "email", "type", "details"};
  }

  /** `validate()` on the partnership form returns true exactly for the acceptable values. */
  lemma PartnerValid(s: Form.FormState)
    ensures Form.Validate(s, PartnerRules()).ok <==> PartnerAccepts(s.values)
  {
    var e := Form.Validate(s, PartnerRules()).form.errors;
    if PartnerAccepts(s.values) {
      assert "company" !in e by { PartnerCompanyError(s); }
      assert "name" !in e by { PartnerNameError(s); }
      assert "email" !in e by { PartnerEmailError(s); }
      assert "type" !in e by { PartnerTypeError(s); }
      assert "details" !in e by { PartnerDetailsError(s); }
      assert e.Keys <= {"company", "name", "email", "type", "details"} by { PartnerUncheckedFields(s); }
      Form.EmptyOnFiveFields(e, "company", "name", "email", "type", "details");
    } else {
      if IsBlank(Form.ValueOf(s.values, "company")) {
        assert "company" in e by { PartnerCompanyError(s); }
      } else if Utf16Length(Form.ValueOf(s.values, "name")) < 2 {
        assert "name" in e by { PartnerNameError(s); }
      } else if !EmailShape(Form.ValueOf(s.values, "email")) {
        assert "email" in e by { PartnerEmailError(s); }
      } else if Form.ValueOf(s.values, "type") == "" {
        assert "type" in e by { PartnerTypeError(s); }
      } else {
        assert "details" in e by { PartnerDetailsError(s); }
      }
    }
  }

  /** `handleSubmit` calls `mutate(values)` exactly when the values are acceptable,
      and otherwise leaves the mutation as it was. */
  lemma PartnerSubmitGate<R>(p: LeadForm.LeadPage<R>)
    ensures var r := LeadForm.Submit(p, PartnerRules());
            && (r.sent.Some? <==> PartnerAccepts(p.form.values))
            && (r.sent.Some? ==> r.sent.value == p.form.values)
            && (r.sent.None? ==> r.page.mutation == p.mutation)
  {
    PartnerValid(p.form);
  }

  /** The freshly mounted form cannot be submitted as it is. */
  lemma PartnerMountedRejected<R>()
    ensures !PartnerAccepts(PartnerInitial())
    ensures LeadForm.Submit(LeadForm.Mount<R>(PartnerInitial()), PartnerRules()).sent.None?
  {
    PartnerValid(Form.Init(PartnerInitial()));
  }
}

=== FILE: projects.dfy ===
/** The projects page: the category filter over the fetched projects and
    what the grid shows. */
module ProjectsPage {
  import opened Wrappers
  import Async

  /** The filter options, "All" first. */
  const Categories: seq<string> := ["All", "FinTech", "HealthTech", "EdTech", "E-Commerce", "SaaS", "AI/ML"]

  /** The fields the filter and the grid keys look at; the rest of a project is display copy. */
  datatype Project = Project(id: string, category: string)

  /** `useState("All")` */
  function InitialFilter(): (f: string)
    ensures f == Categories[0]
  {
    "All"
  }

  /** `data.filter(p => p.category === c)` */
  function ByCategory(ps: seq<Project>, c: string): (r: seq<Project>)
    ensures |r| <= |ps|
    ensures forall p :: p in r ==> p in ps && p.category == c
  {
    if ps == [] then []
    else (if ps[0].category == c then [ps[0]] else []) + ByCategory(ps[1..], c)
  }

  /** `!data ? [] : filter === "All" ? data : data.filter(...)` */
  function Filtered(data: Option<seq<Project>>, filter: string): (r: seq<Project>)
    ensures data.None? ==> r == []
    ensures data.Some? ==> |r| <= |data.value|
    ensures forall p :: p in r ==> data.Some? && p in data.value && (filter == "All" || p.category == filter)
  {
    match data
    case None => []
    case Some(ps) => if filter == "All" then ps else ByCategory(ps, filter)
  }

  /** `a` is `b` with some elements left out, the rest in their original order. */
  predicate IsSubsequence<T(==)>(a: seq<T>, b: seq<T>) {
    if a == [] then true
    else if b == [] then false
    else if a[0] == b[0] then IsSubsequence(a[1..], b[1..])
    else IsSubsequence(a, b[1..])
  }

  lemma {:induction false} ByCategoryIsSubsequence(ps: seq<Project>, c: string)
    ensures IsSubsequence(ByCategory(ps, c), ps)
  {
    if ps != [] {
      ByCategoryIsSubsequence(ps[1..], c);
      var rest := ByCategory(ps[1..], c);
      if ps[0].category == c {
        assert ByCategory(ps, c) == [ps[0]] + rest;
        assert ([ps[0]] + rest)[1..] == rest;
      } else {
        assert ByCategory(ps, c) == rest;
        SubsequenceOfTail(rest, ps);
      }
    }
  }

  /** Allowing one more element at the front of the longer sequence keeps a subsequence. */
  lemma {:induction false} SubsequenceOfTail<T>(a: seq<T>, b: seq<T>)
    requires b != [] && IsSubsequence(a, b[1..])
    ensures IsSubsequence(a, b)
    decreases |b|, 0
  {
    if a != [] && a[0] == b[0] {
      SubsequenceDropFirst(a, b[1..]);
    }
  }

  /** Dropping the first element of a subsequence keeps a subsequence. */
  lemma {:induction false} SubsequenceDropFirst<T>(a: seq<T>, c: seq<T>)
    requires a != [] && IsSubsequence(a, c)
    ensures IsSubsequence(a[1..], c)
    decreases |c|, 1
  {
    if a[0] == c[0] {
      SubsequenceOfTail(a[1..], c);
    } else {
      SubsequenceDropFirst(a, c[1..]);
      SubsequenceOfTail(a[1..], c);
    }
  }

  /** Every project keeps its multiplicity when its category matches and vanishes otherwise. */
  lemma {:induction false} ByCategoryCounts(ps: seq<Project>, c: string)
    ensures forall x :: multiset(ByCategory(ps, c))[x] == if x.category == c then multiset(ps)[x] else 0
  {
    if ps != [] {
      ByCategoryCounts(ps[1..], c);
      assert ps == [ps[0]] + ps[1..];
      var head := if ps[0].category == c then [ps[0]] else [];
      assert multiset(ByCategory(ps, c)) == multiset(head) + multiset(ByCategory(ps[1..], c));
    }
  }

  /** The `filtered` list: empty without data, the data itself under "All", and otherwise
      exactly the projects of the chosen category, in their original order. */
  lemma FilteredMeaning(data: Option<seq<Project>>, filter: string)
    ensures data.None? ==> Filtered(data, filter) == []
    ensures data.Some? && filter == "All" ==> Filtered(data, filter) == data.value
    ensures data.Some? && filter != "All" ==>
              && IsSubsequence(Filtered(data, filter), data.value)
              && (forall p :: p in Filtered(data, filter) ==> p.category == filter)
              && (forall x :: multiset(Filtered(data, filter))[x]
                                == if x.category == filter then multiset(data.value)[x] else 0)
  {
    if data.Some? && filter != "All" {
      ByCategoryIsSubsequence(data.value, filter);
      ByCategoryCounts(data.value, filter);
    }
  }

  /** What the grid area renders. */
  datatype ProjectsView = Skeletons | ErrorPanel(message: string) | NoneFound(filter: string) | Grid(cards: seq<Project>)

  /** `loading ? skeletons : error ? <ErrorState/> : filtered.length === 0 ? "No {filter} projects found." : cards` */
  function View(f: Async.FetchState<seq<Project>>, filter: string): (v: ProjectsView)
    ensures v.Skeletons? <==> f.loading
    ensures v.NoneFound? <==> !f.loading && (f.error.None? || f.error.value == "") && Filtered(f.data, filter) == []
    ensures v.NoneFound? ==> v.filter == filter
    ensures v.Grid? <==> !f.loading && !(f.error.Some? && f.error.value != "") && Filtered(f.data, filter) != []
    ensures v.Grid? ==> v.cards == Filtered(f.data, filter)
    ensures v.ErrorPanel? <==> !f.loading && f.error.Some? && f.error.value != ""
    ensures v.ErrorPanel? ==> f.error.Some? && v.message == f.error.value
  {
    if f.loading then Skeletons
    else if f.error.Some? && f.error.value != "" then ErrorPanel(f.error.value)
    else if Filtered(f.data, filter) == [] then NoneFound(filter)
    else Grid(Filtered(f.data, filter))
  }

  /** On mount the page shows skeletons; once the fetch succeeds with some projects,
      the initial filter shows all of them. */
  lemma FirstLoad(o: Async.Outcome<seq<Project>>)
    requires Async.Succeeded(o) && o.reply.data.Some? && o.reply.data.value != []
    ensures View(Async.FetchMount(), InitialFilter()) == Skeletons
    ensures View(Async.Execute(Async.FetchMount(), o), InitialFilter()) == Grid(o.reply.data.value)
  {
  }

  /** A failed refetch shows the error panel even though the earlier projects are still held. */
  lemma FailedRefetchShowsError(f: Async.FetchState<seq<Project>>, filter: string, o: Async.Outcome<seq<Project>>)
    requires !Async.Succeeded(o)
    ensures var g := Async.Execute(f, o);
            g.data == f.data && View(g, filter) == ErrorPanel(Async.ErrorOf(o))
  {
  }
}

=== FILE: services.dfy ===
/** The services page: the single-open accordion and the stack chips in each card header. */
module ServicesPage {
  import opened Wrappers
  import opened JsText

  /** The separator the stack strings use: space, middle dot, space. */
  const StackSeparator := " \U{00B7} "

  /** `useState(null)`: no card is open. */
  function InitialExpanded(): (r: Option<string>)
    ensures forall id :: !IsOpen(r, id)
  {
    None
  }

  /** Whether the card with this id shows its body (`expanded === s.id`). */
  predicate IsOpen(expanded: Option<string>, id: string) {
    expanded == Some(id)
  }

  /** A click on a card header: `setExpanded(expanded === id ? null : id)`. */
  function Toggle(expanded: Option<string>, id: string): (r: Option<string>)
    ensures IsOpen(r, id) <==> !IsOpen(expanded, id)
    ensures forall other :: other != id ==> !IsOpen(r, other)
  {
    if expanded == Some(id) then None else Some(id)
  }

  /** The accordion state after a run of clicks: at most the last card clicked is open. */
  function Clicks(expanded: Option<string>, clicks: seq<string>): (r: Option<string>)
    ensures clicks == [] ==> r == expanded
    ensures clicks != [] ==> r == None || r == Some(clicks[|clicks| - 1])
  {
    if clicks == [] then expanded else Toggle(Clicks(expanded, clicks[..|clicks| - 1]), clicks[|clicks| - 1])
  }

  /** Clicking the same card twice restores a closed accordion or that card open;
      if another card was open, it ends closed. */
  lemma ToggleTwice(expanded: Option<string>, id: string)
    ensures expanded == None || expanded == Some(id) ==> Toggle(Toggle(expanded, id), id) == expanded
    ensures expanded != None && expanded != Some(id) ==> Toggle(Toggle(expanded, id), id) == None
  {
  }

  /** `stack.split(" · ").slice(0, 3)` */
  function Chips(stack: string): (r: seq<string>)
    ensures |r| <= 3
    ensures |r| <= |Split(stack, StackSeparator)| && r == Split(stack, StackSeparator)[..|r|]
    ensures |r| == 3 || r == Split(stack, StackSeparator)
  {
    var parts := Split(stack, StackSeparator);
    if |parts| <= 3 then parts else parts[..3]
  }

  /** The chips read back, separators restored, as the start of the stack string,
      or as all of it when the stack has at most three parts; no chip holds a separator. */
  lemma ChipsRebuildStack(stack: string)
    ensures var j := Join(Chips(stack), StackSeparator); |j| <= |stack| && j == stack[..|j|]
    ensures |Split(stack, StackSeparator)| <= 3 ==> Join(Chips(stack), StackSeparator) == stack
    ensures forall chip, i :: chip in Chips(stack) && 0 <= i ==> !OccursAt(chip, StackSeparator, i)
  {
    var parts := Split(stack, StackSeparator);
    JoinSplit(stack, StackSeparator);
    JoinTakeIsPrefix(parts, |Chips(stack)|, StackSeparator);
    SplitPiecesAvoidSeparator(stack, StackSeparator);
    assert forall chip :: chip in Chips(stack) ==> chip in parts;
  }
}

=== FILE: validators.dfy ===
/** The field rules the three lead forms are built from: a minimum length,
    a non-empty selection, a non-blank text, and the email shape
    `/^[^\s@]+@[^\s@]+\.[^\s@]+$/`. */
module Validators {
  import opened Wrappers
  import opened JsText
  import Form

  /** A character of the class `[^\s@]`. */
  predicate Atom(c: char) {
    c != '@' && !IsWhitespace(c)
  }

  predicate AllAtoms(s: string) {
    forall k :: 0 <= k < |s| ==> Atom(s[k])
  }

  /** `[^\s@]+` */
  predicate AtomRun(s: string) {
    s != [] && AllAtoms(s)
  }

  /** What the email regex accepts, stated as its shape: `local@d1.d2`, each part
      a non-empty run of characters that are neither whitespace nor `@`. */
  ghost predicate EmailShape(s: string) {
    exists local, d1, d2 :: AtomRun(local) && AtomRun(d1) && AtomRun(d2)
                            && s == local + "@" + d1 + "." + d2
  }

  /** The index of the first `@`, or `|s|` when there is none. */
  function FirstAt(s: string): (i: nat)
    ensures i <= |s|
    ensures i < |s| ==> s[i] == '@'
    ensures forall k :: 0 <= k < i ==> s[k] != '@'
  {
    if s == [] then 0 else if s[0] == '@' then 0 else 1 + FirstAt(s[1..])
  }

  /** A `.` with at least one character on either side. */
  predicate HasInnerDot(d: string) {
    exists j | 1 <= j < |d| - 1 :: d[j] == '.'
  }

  /** The executable email check: split at the first `@`, then look for an inner dot.
      An accepted address has at least five characters (`a@b.c`). */
  predicate IsEmail(s: string)
    ensures IsEmail(s) ==> |s| >= 5
  {
    var i := FirstAt(s);
    0 < i < |s| && AllAtoms(s[..i]) && AllAtoms(s[i + 1..]) && HasInnerDot(s[i + 1..])
  }

  /** Every character of an accepted address but its one `@` is neither whitespace nor `@`. */
  lemma IsEmailCharacters(s: string)
    requires IsEmail(s)
    ensures forall k :: 0 <= k < |s| && k != FirstAt(s) ==> Atom(s[k])
  {
    var i := FirstAt(s);
    assert forall k :: 0 <= k < i ==> s[k] == s[..i][k];
    assert forall k :: i < k < |s| ==> s[k] == s[i + 1..][k - i - 1];
  }

  lemma AllAtomsConcat(a: string, b: string)
    requires AllAtoms(a) && AllAtoms(b)
    ensures AllAtoms(a + b)
  {
    forall k | 0 <= k < |a + b|
      ensures Atom((a + b)[k])
    {
      if k < |a| { assert (a + b)[k] == a[k]; } else { assert (a + b)[k] == b[k - |a|]; }
    }
  }

  lemma AllAtomsSlice(s: string, lo: nat, hi: nat)
    requires AllAtoms(s) && lo <= hi <= |s|
    ensures AllAtoms(s[lo..hi])
  {
    assert forall k :: 0 <= k < hi - lo ==> s[lo..hi][k] == s[lo + k];
  }

  /** Cutting a string at an `@` and its remainder at a `.` gives back the string. */
  lemma Reassemble(s: string, i: nat, j: nat)
    requires i < |s| && s[i] == '@'
    requires j < |s[i + 1..]| && s[i + 1..][j] == '.'
    ensures s == s[..i] + "@" + s[i + 1..][..j] + "." + s[i + 1..][j + 1..]
  {
    var d := s[i + 1..];
    assert d == d[..j] + "." + d[j + 1..];
    assert s == s[..i] + "@" + d;
  }

  lemma ShapeWitness(s: string, local: string, d1: string, d2: string)
    requires AtomRun(local) && AtomRun(d1) && AtomRun(d2)
    requires s == local + "@" + d1 + "." + d2
    ensures EmailShape(s)
  {
  }

  /** Every string the executable check accepts has the regex's shape. */
  lemma IsEmailSound(s: string)
    requires IsEmail(s)
    ensures EmailShape(s)
  {
    var i := FirstAt(s);
    var d := s[i + 1..];
    var j :| 1 <= j < |d| - 1 && d[j] == '.';
    AllAtomsSlice(d, 0, j);
    AllAtomsSlice(d, j + 1, |d|);
    Reassemble(s, i, j);
    ShapeWitness(s, s[..i], d[..j], d[j + 1..]);
  }

  /** The first `@` of `local + "@" + rest` is the one after `local` when `local` has none. */
  lemma FirstAtAfter(local: string, rest: string)
    requires forall k :: 0 <= k < |local| ==> local[k] != '@'
    ensures FirstAt(local + "@" + rest) == |local|
  {
    var s := local + "@" + rest;
    assert s[|local|] == '@';
    assert forall k :: 0 <= k < |local| ==> s[k] == local[k];
  }

  /** Every string of the regex's shape passes the executable check. */
  lemma IsEmailComplete(s: string)
    requires EmailShape(s)
    ensures IsEmail(s)
  {
    var local, d1, d2 :| AtomRun(local) && AtomRun(d1) && AtomRun(d2)
                         && s == local + "@" + d1 + "." + d2;
    var d := d1 + "." + d2;
    var n := |local|;
    assert s == local + "@" + d;
    FirstAtAfter(local, d);
    assert s[..n] == local;
    assert s[n + 1..] == d;
    AllAtomsConcat(d1, ".");
    AllAtomsConcat(d1 + ".", d2);
    assert d[|d1|] == '.';
  }

  /** The executable check accepts exactly the strings of the regex's shape. */
  lemma IsEmailIffShape(s: string)
    ensures IsEmail(s) <==> EmailShape(s)
  {
    if IsEmail(s) { IsEmailSound(s); }
    if EmailShape(s) { IsEmailComplete(s); }
  }

  // ------------------------------------------------------------ rule builders

  /** `v => v.length < n ? msg : null`: flags, with `msg`, the values shorter than `n` UTF-16 code units. */
  function MinLength(n: nat, msg: string): (r: Form.Rule)
    ensures forall v {:trigger Form.Flags(r(v))} :: Form.Flags(r(v)) <==> msg != "" && Utf16Length(v) < n
    ensures forall v {:trigger Form.Flags(r(v))} :: r(v) in {None, Some(msg)}
  {
    v => if Utf16Length(v) < n then Some(msg) else None
  }

  /** `v => !v ? msg : null`: flags, with `msg`, an empty selection. */
  function Required(msg: string): (r: Form.Rule)
    ensures forall v {:trigger Form.Flags(r(v))} :: Form.Flags(r(v)) <==> msg != "" && v == []
    ensures forall v {:trigger Form.Flags(r(v))} :: r(v) in {None, Some(msg)}
  {
    v => if v == "" then Some(msg) else None
  }

  /** `v => !v.trim() ? msg : null`: flags, with `msg`, the values made only of whitespace. */
  function NonBlank(msg: string): (r: Form.Rule)
    ensures forall v {:trigger Form.Flags(r(v))} :: Form.Flags(r(v)) <==> msg != "" && IsBlank(v)
    ensures forall v {:trigger Form.Flags(r(v))} :: r(v) in {None, Some(msg)}
  {
    assert forall v :: Trim(v) == "" <==> IsBlank(v) by {
      forall v ensures Trim(v) == "" <==> IsBlank(v) { TrimEmptyIffBlank(v); }
    }
    v => if Trim(v) == "" then Some(msg) else None
  }

  /** `v => !/^[^\s@]+@[^\s@]+\.[^\s@]+$/.test(v) ? msg : null`: flags, with `msg`,
      the values not of the shape `local@d1.d2`. */
  function EmailRule(msg: string): (r: Form.Rule)
    ensures forall v {:trigger Form.Flags(r(v))} :: Form.Flags(r(v)) <==> msg != "" && !EmailShape(v)
    ensures forall v {:trigger Form.Flags(r(v))} :: r(v) in {None, Some(msg)}
  {
    assert forall v :: IsEmail(v) <==> EmailShape(v) by {
      forall v ensures IsEmail(v) <==> EmailShape(v) { IsEmailIffShape(v); }
    }
    v => if !IsEmail(v) then Some(msg) else None
  }

  /** An address the email rule accepts. */
  lemma EmailAcceptsPlain()
    ensures IsEmail("a@b.com")
  {
    assert "a@b.com" == "a" + "@" + "b" + "." + "com";
    ShapeWitness("a@b.com", "a", "b", "com");
    IsEmailComplete("a@b.com");
  }

  /** Dots may appear in the local part and more than once in the domain. */
  lemma EmailAcceptsDotted()
    ensures IsEmail("x.y@b.c.in")
  {
    assert "x.y@b.c.in" == "x.y" + "@" + "b" + "." + "c.in";
    ShapeWitness("x.y@b.c.in", "x.y", "b", "c.in");
    IsEmailComplete("x.y@b.c.in");
  }

  /** Strings the email rule rejects for their `@`: none, an empty local part, a second one. */
  lemma EmailRejectsAt()
    ensures !IsEmail("bad")
    ensures !IsEmail("@b.com")
    ensures !IsEmail("a@@b.com")
  {
    assert FirstAt("a@@b.com") == 1;
    assert "a@@b.com"[2..][0] == '@';
  }

  /** Strings the email rule rejects for their domain: no dot, or a dot at either end. */
  lemma EmailRejectsDomain()
    ensures !IsEmail("a@b")
    ensures !IsEmail("a@.com")
    ensures !IsEmail("a@b.")
  {
    assert FirstAt("a@b") == 1;
    assert FirstAt("a@.com") == 1;
    assert FirstAt("a@b.") == 1;
  }

  /** Whitespace anywhere is rejected. */
  lemma EmailRejectsWhitespace()
    ensures !IsEmail("a b@c.com")
  {
    assert FirstAt("a b@c.com") == 3;
    assert "a b@c.com"[..3][1] == ' ';
  }
}

=== FILE: wrappers.dfy ===
/** The nullable values of the site's state (`null` in the source) as an Option. */
module Wrappers {

  datatype Option<+T> = None | Some(value: T)
}
